=== FILE: README.md ===
# Dengue patient allocation engine: a Dafny model

This project models the decision core of a dengue hospital-allocation tool.
A patient's lab results and age give a severity verdict. The verdict fixes
the resource needed: a general bed or an ICU bed. The engine then checks the
requested hospital's forecast capacity for the admission month. When that
hospital is full, it scans the hospital's distance column, nearest first,
for the first other hospital with spare capacity.

The repository holds four copies of this engine, each with its own verdict
rules and missing-data handling. Each is modelled as its own module:

- `Allocation2` (allocation2.py) is the primary engine. It scores the
  patient, normalises the facility name and returns early on every failure.
  It reports the distance of the hospital it redirects to.
- `Allocation` (allocation.py) uses the same score. Names must match
  exactly. The prompt that calls it strips the typed name but the sheet's
  own names are used as they stand, so letter case, or whitespace in the
  sheet's names, is what misses. A home missing from the forecast still
  falls through to the fallback, and a home missing from the distance
  matrix raises `KeyError`.
- `Simulator` (simulator.py) uses ordered rules over "Positive"/"Negative"
  test strings and the strict `occupied < total` test.
- `Streamlit` (streamlitee.py) uses a three-level rule set that also fixes
  the need, and reports distance 0 for a patient kept at home.

Shared pieces:

- `Common` holds the forecast snapshot and its four columns, the verdicts,
  the resources, the forecast and distance-matrix maps, and the values of
  the result dictionaries.
- `Names` models `str.strip().lower()`.
- `Ranking` models `sort_values()` on a distance column and the
  first-eligible scan that every engine uses.

Every engine returns a structured decision with one constructor per
terminal outcome. Its `Render` function turns that decision into the
dictionary the Python function returns.

Inputs that the Python code reads from files or the outside world are
parameters here:

- The forecast is a map from (year, month) to facility snapshots. The
  allocation scripts use the per-facility mean of the forecast rows. The
  simulator and the web form use the first row.
- The distance matrix is a map from a column's facility to that column's
  (row facility, distance) cells, in file order.
- The parsed date is an `Option`: `None` stands for a date that
  `strptime` or `pd.to_datetime` rejects.
- allocation2.py's display-name lookup is a given function.

Behaviours of the code worth knowing:

- allocation2.py never assigns a patient at home. Lines 62-64 overwrite the
  home's occupied count with its total before the strict `>` test. A home
  that is present in the forecast is therefore always reported "No" and
  rerouted. `Allocation2.HomeWithRoomRedirected` shows a home with 5 of 10
  ICU beds free being redirected.
- The verdict table gives Very Severe for every score above 1 except exactly
  2 and 3, so the half-point scores 1.5 and 2.5 count too. A patient with a
  positive IgG is therefore Mild or Very Severe, never in between. The
  verdict is not monotone in the score. It is monotone in the inputs,
  which `Allocation2.VerdictMonotone` proves.
- None of the engines rejects negative ages or platelet counts, or empty
  facility names. Those inputs are simply classified and looked up.
- `sort_values` uses an unstable sort by default, so ties between equal
  distances are not ordered. The model sorts with an insertion sort. Every
  property proved about the pick uses only "ascending and the same
  entries", so the properties hold whatever the order of ties.

## Model

| member | source | states |
|---|---|---|
| `Names.TrimStart` | allocation2.py:44 | the leading-whitespace strip keeps a suffix, drops only whitespace, and leaves no leading whitespace |
| `Names.TrimEnd` | allocation2.py:44 | the trailing-whitespace strip keeps a prefix, drops only whitespace, and leaves no trailing whitespace |
| `Names.NormalizeIdempotent` | allocation2.py:44 | `strip().lower()` applied to its own result changes nothing, so a key is its own key |
| `Names.NormalizeIgnoresCaseAndSpace` | allocation2.py:44 | names that differ only in ASCII letter case and surrounding whitespace normalise to the same key |
| `Ranking.SortByDistance` | allocation2.py:99 | the sorted column is ascending in distance and holds exactly the column's cells (a permutation) |
| `Ranking.FirstEligible` | allocation2.py:99-104 | the scan returns the first eligible cell of the sequence (every earlier cell is ineligible), or nothing exactly when no cell is eligible; on an ascending sequence the result is no farther than any eligible cell |
| `Ranking.NearestEligible` | allocation2.py:99-115 | scanning the sorted column picks an eligible cell at minimum distance among all eligible cells of the original column, and finds none only when none is eligible |
| `Allocation2.PlateletPenalty` | allocation2.py:18-23 | the platelet penalty lies in 0..3 and is 0 exactly from 150000 platelets up |
| `Allocation2.Score` | allocation2.py:15-24 | the score lies in [0, 6.5]; it is 6.5 only for a child with every test positive and platelets under 50000, and 0 only for an adult with no positive test and at least 150000 platelets; it is a whole number exactly when IgG is negative |
| `Allocation2.VerdictOf` | allocation2.py:26-34 | Mild exactly for scores up to 1, Moderate exactly at 2, Severe exactly at 3, Very Severe otherwise; so every fractional score above 1 is Very Severe |
| `Allocation2.Classify` | allocation2.py:52-53 | a positive IgG yields only Mild or Very Severe; platelets under 50000 yield at least Severe; an adult with normal platelets and negative IgM and NS1 is Mild |
| `Allocation2.VerdictMonotone` | allocation2.py:15-34 | raising a test flag, lowering platelets or becoming younger than 15 never lowers the verdict's rank |
| `Allocation2.RequiredResource` | allocation2.py:36-37 | the occupied column read is the ICU one exactly when the verdict ranks Severe or above |
| `Allocation2.ResourceType` | allocation2.py:39-40 | the resource reported for a column is the one that column measures: the column is that resource's occupied or total column |
| `Allocation2.ColumnsPaired` | allocation2.py:36-56 | the capacity column is always the total of the same resource as the occupied column, and ICU is needed exactly for Severe and Very Severe |
| `Allocation2.ForceFull` | allocation2.py:62-64 | after the overwrite the home's occupied value equals its total; other facilities and the home's other columns are unchanged |
| `Allocation2.Decide` | allocation2.py:78-115 | a present home is never assigned; the outcome is home-unknown exactly when the key is not forecast, and distance-unknown exactly when it is forecast but has no distance column; a redirect names a non-home, forecast facility with room, nearest among all such cells of the home's column, and reports that cell's distance; unassigned exactly when no cell qualifies |
| `Allocation2.HomeWithRoomRedirected` | allocation2.py:62-88 | a home with free ICU beds is still redirected to the neighbour 3.2 km away |
| `Allocation2.Allocate` | allocation2.py:43-115 | an unparseable date gives the bare error and nothing else; otherwise the input name and date are echoed, the verdict is the one the patient's score gives, ICU is needed iff it ranks Severe or above, and the patient is never placed at home; for the normalised name and the month's forecast: home unknown exactly when the name has no forecast, distance unknown exactly when it is forecast without a distance column, unassigned exactly when no cell of its column is a candidate, and a redirect names (through the display lookup) a nearest candidate of that column with that cell's distance |
| `Allocation2.SpellingInsensitive` | allocation2.py:44-79 | two spellings with the same normalised key get the same decision apart from the echoed name |
| `Allocation2.Render` | allocation2.py:46-115 | the error result is the single "Error" message; a decided result carries the date, verdict name, resource label and tried name; availability reads "Unknown" for an unknown home, "Yes" at home and "No" otherwise; "Assigned Hospital" is absent exactly for the home-unknown and distance-unknown outcomes, is the tried name at home, the facility on a redirect and None on exhaustion; "Distance (KM)" appears exactly on a redirect and is the reported cell; the note names each outcome: assigned at home, not in prediction data, not in the distance matrix, redirected with the resource label, or no nearby hospital with the resource |
| `Allocation.Score` | allocation.py:19-28 | this file's score equals allocation2.py's score on every patient |
| `Allocation.VerdictOf` | allocation.py:30-38 | this file's verdict table equals allocation2.py's on every score |
| `Allocation.RequiredResource` | allocation.py:40-41 | the occupied column is the ICU one exactly when the verdict ranks Severe or above |
| `Allocation.ResourceTypeLabel` | allocation.py:43-44 | the resource reported for a column is the one that column measures |
| `Allocation.ColumnsPaired` | allocation.py:40-59 | the total column chosen by equality with the ICU column pairs with the occupied column, as in allocation2.py |
| `Allocation.Decide` | allocation.py:71-101 | "Yes" exactly when the exact name is forecast with total above occupied, and then the patient stays; "No data" exactly when it is not forecast, and the search still runs; a missing distance column is the escaping KeyError; a redirect is a nearest non-home forecast facility with room; unassigned exactly when none qualifies |
| `Allocation.Allocate` | allocation.py:47-101 | an invalid date gives the bare error; the verdict is the one the patient's score gives and ICU is needed iff it ranks Severe or above; the KeyError occurs exactly when the exact name has no room (or no forecast) and no distance column; availability is "Yes" exactly when the exact name is forecast with total strictly above occupied, and "No data" exactly when the name has no forecast; the patient stays home exactly when availability is "Yes"; a redirect is a nearest non-home candidate of the home's column; otherwise unassigned exactly when no cell qualifies |
| `Allocation.FullAtEquality` | allocation.py:71-80 | a home with occupied equal to total is reported "No" and the patient is not kept there |
| `Allocation.ExactNameMatch` | allocation.py:71-85 | a trailing space makes a forecast hospital "No data", and the request still reaches the fallback |
| `Allocation.Render` | allocation.py:48-101 | the error result is the single "Error" message; a KeyError yields no dictionary; a decided result carries the verdict name, resource label and the availability read as "Yes", "No" or "No data"; "Assigned Hospital" is the home when kept there, the facility (also named in the note) on a redirect, and None on exhaustion; there is never a distance |
| `Simulator.GetVerdict` | simulator.py:14-22 | Very Severe exactly for platelets under 20000 with NS1 "Positive"; Severe exactly when that does not hold but platelets are under 50000 or IgG and IgM are both "Positive"; Mild exactly when platelets exceed 100000 and IgG is not "Positive"; Moderate in the remaining cases |
| `Simulator.VerdictMonotone` | simulator.py:14-22 | lowering platelets or turning a test "Positive" never lowers the verdict's rank |
| `Simulator.NeedOf` | simulator.py:28 | ICU exactly for Severe and Very Severe |
| `Simulator.Decide` | simulator.py:31-123 | with no forecast row the request ends without rerouting; the patient stays exactly when occupied is below total; a missing distance column ends the request; a reroute is a nearest facility with a row and room, with its raw distance, and is never the home; none found exactly when no cell qualifies |
| `Simulator.Allocate` | simulator.py:25-123 | a date `pd.to_datetime` rejects raises; otherwise the verdict is the rule table's for the tests and platelets, ICU is needed iff it ranks Severe or above; for the name as typed and the month's rows: not in prediction exactly without a row, kept at home exactly when the row has room, not in distance exactly when full without a column, a reroute is a nearest eligible facility of the column with its raw distance and never the home, none found exactly when no cell qualifies |
| `Simulator.Render` | simulator.py:33-123 | a raised date yields no dictionary; every result carries the date, verdict name, resource label and tried name; "Yes" and the tried name when kept at home; "No", the facility and its distance on a reroute; "Distance (km)" appears exactly on a reroute; every failure reads "No" and "None Found"; the note tells the outcomes apart: not in prediction, not in the distance matrix, rerouted with ICU or general bed, no hospitals found nearby |
| `Streamlit.GetVerdict` | streamlitee.py:30-36 | Very Severe exactly for platelets under 50000 or all three tests "Positive"; Normal exactly for at least 100000 platelets without all three positive; Severe otherwise; the need is ICU exactly when the verdict is not Normal |
| `Streamlit.VerdictIgnoresAgeAndWeight` | streamlitee.py:30-36 | age and weight never change the verdict |
| `Streamlit.Decide` | streamlitee.py:42-79 | no row for the home ends the request; the patient stays exactly when occupied is below total; a missing distance column ends the request; a reroute is a nearest non-home facility with a row and room, with that cell's distance; none available exactly when no cell qualifies |
| `Streamlit.Allocate` | streamlitee.py:38-79 | the verdict and need are the rule table's for the inputs; not found exactly without a row for the home; kept at home exactly when the row has room; not in distance exactly when full without a column; a reroute is a nearest non-home candidate of the column with that cell's distance; none available exactly when no cell qualifies |
| `Streamlit.Render` | streamlitee.py:45-79 | every result carries the date, verdict name, resource label, tried name, an assignment and a distance; "Yes", the tried name and distance 0 at home, "No" otherwise; the facility and its distance on a reroute; a missing row or distance column reads "N/A" for both; exhaustion reads "None" with distance "N/A"; the note tells the outcomes apart: hospital/date not found, not in the distance matrix, rerouted to ICU or general bed, no beds available |

## Left out

- Loading and cleaning the forecast sheet and the distance CSV at module
  level. The pandas `groupby().mean()` aggregation is also left out: the
  engines take an already aggregated forecast and a cleaned distance
  matrix.
- allocation2.py's overwrite happens on the rows before the mean. The model
  applies it to the aggregated snapshot. The mean of a column set equal to
  another column equals that column's mean, so the result is the same.
- The three forecasting scripts (MLP, XGBoost, random forest). They only
  produce the forecast the engines read.
- Date parsing (`strptime`, `pd.to_datetime`) and `strftime`. A parsed date
  is a given (year, month) and ISO text, and a rejected date is `None`.
- The CLI prompts and printing, and the Streamlit widgets.
- The unused `weight` argument of allocation2.py, allocation.py and
  simulator.py. `Streamlit.GetVerdict` keeps it and proves it irrelevant.
- Floating point. Occupancy, totals, scores and distances are exact reals,
  so NaN from `to_numeric(errors='coerce')` is not represented.
- `round(distance, 2)` at allocation2.py:109. The reported distance is the
  unrounded cell.
- The order of ties in `sort_values`. Only "ascending" is relied on.
- streamlitee.py's lookups through a placeholder column (line 43) and a
  `"Date"` column the file never creates (line 68). Both raise in practice.
  They are modelled as a lookup in the rows for the admission date.
- Test flags for allocation2.py and allocation.py are booleans. Integers
  other than 0 and 1, which the prompts accept, are not modelled.
- `str.lower()` is modelled on ASCII letters only. Other Unicode case
  mappings are not modelled.
- Duplicate row labels in a distance column. With duplicates, `.loc` and
  `distances[alt]` would return several values. The model reports the cell
  the scan reached.
- Allocation2.Allocate: the forecast and distance-matrix keys are taken as
  already normalised. allocation2.py builds `Hospital_norm` with
  `strip().lower()` (lines 60 and 67) and normalises the distance labels at
  load (lines 10-11); the model leaves that loading out and normalises only
  the typed name.
- Simulator.Allocate: the typed name is matched as given against forecast
  names that simulator.py strips at load (line 11), and against the
  distance labels as they stand in the file. The stripping is part of the
  loading left out above. allocation.py and streamlitee.py use raw names
  throughout, so their models need no such assumption.

=== FILE: allocation.dfy ===
/** allocation.py: the earlier copy of the score-based engine. Facility names
    are matched exactly, a missing home does not stop the search, and a home
    missing from the distance matrix raises. */
module Allocation {
  import opened Common
  import opened Ranking
  import Allocation2

  /** `calculate_severity`, this file's own copy. */
  function Score(age: int, platelet: int, igg: bool, igm: bool, ns1: bool): (score: real)
    ensures score == Allocation2.Score(age, platelet, igg, igm, ns1)
  {
    var tests := (if ns1 then 1.0 else 0.0) + (if igm then 1.0 else 0.0) + 0.5 * (if igg then 1.0 else 0.0);
    var withAge := tests + (if age < 15 then 1.0 else 0.0);
    if platelet < 50000 then withAge + 3.0
    else if platelet < 100000 then withAge + 2.0
    else if platelet < 150000 then withAge + 1.0
    else withAge
  }

  /** `get_verdict`, this file's own copy. */
  function VerdictOf(score: real): (v: Verdict)
    ensures v == Allocation2.VerdictOf(score)
  {
    if score <= 1.0 then Mild
    else if score == 2.0 then Moderate
    else if score == 3.0 then Severe
    else VerySevere
  }

  /** `required_resource`: the occupied column, ICU exactly for Severe and
      Very Severe. */
  function RequiredResource(v: Verdict): (c: Column)
    ensures c == BedsOccupied || c == IcuBedsOccupied
    ensures c == IcuBedsOccupied <==> v.Rank() >= 2
  {
    if v == Severe || v == VerySevere then IcuBedsOccupied else BedsOccupied
  }

  /** `resource_type_label`: ICU when the column header mentions ICU. */
  function ResourceTypeLabel(c: Column): (r: Resource)
    ensures c == OccupiedColumn(r) || c == TotalColumn(r)
  {
    if c.MentionsIcu() then Icu else General
  }

  /** Lines 59 and 91: the total column is chosen by comparing with the ICU
      occupied column. */
  function CapacityColumn(c: Column): Column {
    if c == IcuBedsOccupied then IcuBedsTotal else BedsTotal
  }

  /** The column pair read is the occupied and total of one resource, the
      same pair allocation2.py reads. */
  lemma ColumnsPaired(v: Verdict)
    ensures var occ := RequiredResource(v);
            && occ == OccupiedColumn(ResourceTypeLabel(occ))
            && CapacityColumn(occ) == TotalColumn(ResourceTypeLabel(occ))
            && occ == Allocation2.RequiredResource(v)
            && CapacityColumn(occ) == Allocation2.CapacityColumn(occ)
  {
  }

  /** "ICU/Bed Available at Current Hospital". */
  datatype Availability = Yes | No | NoData

  /** Where the patient ends up. */
  datatype Outcome = AssignedHome | Redirected(facility: string) | Unassigned

  /** The result dictionary, the bare date error, or the KeyError that
      escapes when the home has no distance column. */
  datatype Decision =
    | InvalidDate
    | KeyErrorRaised
    | Decided(hospital: string, verdict: Verdict, need: Resource, available: Availability, outcome: Outcome)

  /** A facility the fallback may pick: not the home, forecast this month,
      total strictly above occupied. */
  predicate Candidate(home: string, status: Status, occ: Column, name: string) {
    && name != home
    && name in status
    && Read(status[name], CapacityColumn(occ)) > Read(status[name], occ)
  }

  /** Lines 71-101 for the exact name `home`. A home with room is used; a
      full home and a home without forecast both fall through to the
      fallback, which needs the home's distance column and otherwise picks
      a nearest candidate. */
  function Decide(home: string, status: Status, distances: DistanceMatrix, occ: Column): (r: Option<(Availability, Outcome)>)
    ensures r.None? <==>
              !(home in status && Read(status[home], CapacityColumn(occ)) > Read(status[home], occ))
              && home !in distances
    ensures r.Some? ==> (r.value.0 == Yes <==> r.value.1 == AssignedHome)
    ensures r.Some? ==>
              && (r.value.0 == Yes <==> home in status && Read(status[home], CapacityColumn(occ)) > Read(status[home], occ))
              && (r.value.0 == NoData <==> home !in status)
    ensures r.Some? && r.value.1.Redirected? ==>
              && home in distances
              && exists e :: && e in distances[home] && Candidate(home, status, occ, e.0) && e.0 == r.value.1.facility
                             && forall e' :: e' in distances[home] && Candidate(home, status, occ, e'.0) ==> e.1 <= e'.1
    ensures r.Some? && r.value.0 != Yes ==>
              && home in distances
              && (r.value.1.Unassigned? <==> forall e :: e in distances[home] ==> !Candidate(home, status, occ, e.0))
  {
    var available :=
      if home !in status then NoData
      else if Read(status[home], CapacityColumn(occ)) > Read(status[home], occ) then Yes
      else No;
    if available == Yes then Some((Yes, AssignedHome))
    else if home !in distances then None
    else
      var column := distances[home];
      var eligible := (n: string) => Candidate(home, status, occ, n);
      NearestEligible(column, eligible);
      match FirstEligible(SortByDistance(column), eligible)
      case Some(e) => Some((available, Redirected(e.0)))
      case None => Some((available, Unassigned))
  }

  /** `allocate_patient_verbose`; `parsed` is what `strptime` makes of the
      date. The weight is never read. */
  function Allocate(hospital: string, parsed: Option<Period>,
                    age: int, platelet: int, igg: bool, igm: bool, ns1: bool,
                    forecast: Forecast, distances: DistanceMatrix): (d: Decision)
    ensures d.InvalidDate? <==> parsed.None?
    ensures d.KeyErrorRaised? ==> hospital !in distances
    ensures d.Decided? ==> d.hospital == hospital
    ensures d.Decided? ==> (d.need == Icu <==> d.verdict.Rank() >= 2)
    ensures d.Decided? ==> (d.available == Yes <==> d.outcome == AssignedHome)
    ensures d.Decided? ==>
              var status, occ := MonthStatus(forecast, parsed.value), RequiredResource(d.verdict);
              (d.available == Yes <==>
                 hospital in status && Read(status[hospital], CapacityColumn(occ)) > Read(status[hospital], occ))
    ensures d.Decided? && d.outcome == AssignedHome ==> hospital in MonthStatus(forecast, parsed.value)
    ensures d.Decided? && d.outcome.Redirected? ==> d.outcome.facility != hospital
    ensures d.Decided? ==> d.verdict == VerdictOf(Score(age, platelet, igg, igm, ns1))
    ensures d.Decided? ==> (d.available == NoData <==> hospital !in MonthStatus(forecast, parsed.value))
    ensures parsed.Some? ==>
              var status, occ := MonthStatus(forecast, parsed.value), RequiredResource(VerdictOf(Score(age, platelet, igg, igm, ns1)));
              (d.KeyErrorRaised? <==>
                 !(hospital in status && Read(status[hospital], CapacityColumn(occ)) > Read(status[hospital], occ))
                 && hospital !in distances)
    ensures d.Decided? && d.outcome.Redirected? ==>
              var status, occ := MonthStatus(forecast, parsed.value), RequiredResource(d.verdict);
              && hospital in distances
              && exists e :: && e in distances[hospital] && Candidate(hospital, status, occ, e.0)
                             && e.0 == d.outcome.facility
                             && forall e' :: e' in distances[hospital] && Candidate(hospital, status, occ, e'.0) ==> e.1 <= e'.1
    ensures d.Decided? && d.available != Yes ==>
              var status, occ := MonthStatus(forecast, parsed.value), RequiredResource(d.verdict);
              && hospital in distances
              && (d.outcome.Unassigned? <==> forall e :: e in distances[hospital] ==> !Candidate(hospital, status, occ, e.0))
  {
    match parsed
    case None => InvalidDate
    case Some(p) =>
      var verdict := VerdictOf(Score(age, platelet, igg, igm, ns1));
      var occ := RequiredResource(verdict);
      match Decide(hospital, MonthStatus(forecast, p), distances, occ)
      case None => KeyErrorRaised
      case Some((available, outcome)) => Decided(hospital, verdict, ResourceTypeLabel(occ), available, outcome)
  }

  /** A home exactly at capacity is full: it is reported "No" and the
      patient is sent elsewhere. */
  lemma FullAtEquality(home: string, status: Status, distances: DistanceMatrix, occ: Column)
    requires home in status
    requires Read(status[home], CapacityColumn(occ)) == Read(status[home], occ)
    ensures var r := Decide(home, status, distances, occ);
            r.Some? ==> r.value.0 == No && r.value.1 != AssignedHome
  {
  }

  /** Names are matched exactly: a trailing space makes a forecast facility
      unknown, and the request still goes on to the fallback. The prompt
      that feeds this function strips the typed name, so there it is a
      difference in letter case that misses. */
  lemma ExactNameMatch(name: string, s: Snapshot, distances: DistanceMatrix, occ: Column)
    requires name + " " in distances
    ensures var r := Decide(name + " ", map[name := s], distances, occ);
            r.Some? && r.value.0 == NoData && r.value.1 != AssignedHome
  {
    assert name + " " != name by {
      assert |name + " "| != |name|;
    }
  }

  function ResourceLabel(r: Resource): string {
    if r == Icu then "ICU" else "General Bed"
  }

  function AvailabilityLabel(a: Availability): string {
    match a
    case Yes => "Yes"
    case No => "No"
    case NoData => "No data"
  }

  /** The dictionary `allocate_patient_verbose` returns; a raised KeyError
      has none. */
  function Render(d: Decision): (out: Option<map<string, Value>>)
    ensures out.None? <==> d.KeyErrorRaised?
    ensures d.InvalidDate? ==> out.value.Keys == {"Error"}
    ensures d.Decided? ==>
              && {"Verdict", "Resource Required", "ICU/Bed Available at Current Hospital", "Assigned Hospital", "Note"}
                   <= out.value.Keys
              && "Distance (KM)" !in out.value
    ensures d.InvalidDate? ==> out.value["Error"] == Text("Invalid date format. Use YYYY-MM-DD")
    ensures d.Decided? ==>
              && out.value["Verdict"] == Text(d.verdict.Name())
              && out.value["Resource Required"] == Text(if d.need == Icu then "ICU" else "General Bed")
    ensures d.Decided? ==>
              out.value["ICU/Bed Available at Current Hospital"] ==
                Text(if d.available == Yes then "Yes" else if d.available == No then "No" else "No data")
    ensures d.Decided? && d.outcome.AssignedHome? ==> out.value["Assigned Hospital"] == Text(d.hospital)
    ensures d.Decided? && d.outcome.Redirected? ==>
              && out.value["Assigned Hospital"] == Text(d.outcome.facility)
              && out.value["Note"] == Text("Redirected to nearest available hospital: " + d.outcome.facility)
    ensures d.Decided? && d.outcome.Unassigned? ==> out.value["Assigned Hospital"] == Null
  {
    match d
    case InvalidDate => Some(map["Error" := Text("Invalid date format. Use YYYY-MM-DD")])
    case KeyErrorRaised => None
    case Decided(hospital, verdict, need, available, outcome) =>
      var head := map["Verdict" := Text(verdict.Name()), "Resource Required" := Text(ResourceLabel(need)),
                      "ICU/Bed Available at Current Hospital" := Text(AvailabilityLabel(available))];
      match outcome
      case AssignedHome =>
        Some(head["Assigned Hospital" := Text(hospital)]["Note" := Text("Assigned at current hospital")])
      case Redirected(facility) =>
        Some(head["Assigned Hospital" := Text(facility)]
                 ["Note" := Text("Redirected to nearest available hospital: " + facility)])
      case Unassigned =>
        Some(head["Assigned Hospital" := Null]["Note" := Text("No available ICU/Bed found in nearby hospitals")])
  }
}

=== FILE: allocation2.dfy ===
/** allocation2.py: the score-based severity classifier and the allocation
    engine with name normalisation, early returns and distance reporting. */
module Allocation2 {
  import opened Common
  import opened Names
  import opened Ranking

  /** A 0/1 test flag as the number the score adds. */
  function Flag(b: bool): real {
    if b then 1.0 else 0.0
  }

  /** The platelet part of `calculate_severity`: 3, 2, 1 or 0 points at the
      50000 / 100000 / 150000 thresholds. */
  function PlateletPenalty(platelet: int): (p: int)
    ensures 0 <= p <= 3
    ensures p == 0 <==> platelet >= 150000
  {
    if platelet < 50000 then 3
    else if platelet < 100000 then 2
    else if platelet < 150000 then 1
    else 0
  }

  /** `calculate_severity`: NS1 and IgM count one point each, IgG half a
      point, a patient under 15 one point, plus the platelet penalty. */
  function Score(age: int, platelet: int, igg: bool, igm: bool, ns1: bool): (score: real)
    ensures 0.0 <= score <= 6.5
    ensures score == 6.5 <==> age < 15 && platelet < 50000 && igg && igm && ns1
    ensures score == 0.0 <==> age >= 15 && platelet >= 150000 && !igg && !igm && !ns1
    ensures score.Floor as real == score <==> !igg
  {
    var tests := Flag(ns1) + Flag(igm) + 0.5 * Flag(igg);
    var withAge := tests + (if age < 15 then 1.0 else 0.0);
    withAge + PlateletPenalty(platelet) as real
  }

  /** `get_verdict`: only the exact scores 2 and 3 give Moderate and Severe;
      every other score above 1, the half-point ones included, is Very
      Severe. */
  function VerdictOf(score: real): (v: Verdict)
    ensures v == Mild <==> score <= 1.0
    ensures v == Moderate <==> score == 2.0
    ensures v == Severe <==> score == 3.0
    ensures score > 1.0 && score.Floor as real != score ==> v == VerySevere
    ensures v == Moderate || v == Severe ==> score.Floor as real == score
  {
    if score <= 1.0 then Mild
    else if score == 2.0 then Moderate
    else if score == 3.0 then Severe
    else VerySevere
  }

  /** The verdict of one patient. A positive IgG makes the score fractional,
      so such a patient is either Mild or Very Severe; a platelet count
      under 50000 alone reaches Severe. */
  function Classify(age: int, platelet: int, igg: bool, igm: bool, ns1: bool): (v: Verdict)
    ensures igg ==> v == Mild || v == VerySevere
    ensures platelet < 50000 ==> v.Rank() >= 2
    ensures age >= 15 && platelet >= 150000 && !igm && !ns1 ==> v == Mild
  {
    VerdictOf(Score(age, platelet, igg, igm, ns1))
  }

  /** Raising any test flag, lowering the platelet count or making the patient
      younger than 15 never lowers the verdict, even though the verdict is
      not monotone in the score itself (1.5 is Very Severe, 3 is Severe). */
  lemma VerdictMonotone(age: int, platelet: int, igg: bool, igm: bool, ns1: bool,
                        age': int, platelet': int, igg': bool, igm': bool, ns1': bool)
    requires (igg ==> igg') && (igm ==> igm') && (ns1 ==> ns1')
    requires platelet' <= platelet
    requires age < 15 ==> age' < 15
    ensures Classify(age, platelet, igg, igm, ns1).Rank() <= Classify(age', platelet', igg', igm', ns1').Rank()
  {
    var s := Score(age, platelet, igg, igm, ns1);
    var s' := Score(age', platelet', igg', igm', ns1');
    assert PlateletPenalty(platelet) <= PlateletPenalty(platelet');
    assert s <= s';
  }

  /** `get_required_resource`: the occupied column to read, the ICU one
      exactly for a Severe or Very Severe verdict. */
  function RequiredResource(v: Verdict): (c: Column)
    ensures c == BedsOccupied || c == IcuBedsOccupied
    ensures c.MentionsIcu() <==> v.Rank() >= 2
  {
    if v == Severe || v == VerySevere then IcuBedsOccupied else BedsOccupied
  }

  /** `get_resource_type`: ICU when the column header mentions ICU. */
  function ResourceType(c: Column): (r: Resource)
    ensures c == OccupiedColumn(r) || c == TotalColumn(r)
  {
    if c.MentionsIcu() then Icu else General
  }

  /** Line 56: the total column read against an occupied column. */
  function CapacityColumn(c: Column): Column {
    if c.MentionsIcu() then IcuBedsTotal else BedsTotal
  }

  /** The capacity column is always the total of the same resource as the
      occupied column, and ICU is needed exactly for Severe and Very Severe. */
  lemma ColumnsPaired(v: Verdict)
    ensures var occ := RequiredResource(v);
            && occ == OccupiedColumn(ResourceType(occ))
            && CapacityColumn(occ) == TotalColumn(ResourceType(occ))
            && (ResourceType(occ) == Icu <==> v == Severe || v == VerySevere)
  {
  }

  /** Lines 62-64: the home facility's occupied column overwritten with its
      total; every other facility and every other column unchanged. */
  function ForceFull(status: Status, home: string, occ: Column): (st: Status)
    ensures st.Keys == status.Keys
    ensures home in st ==> Read(st[home], occ) == Read(st[home], CapacityColumn(occ))
    ensures home in status ==> forall c :: c != occ ==> Read(st[home], c) == Read(status[home], c)
    ensures forall n :: n in status && n != home ==> st[n] == status[n]
  {
    if home in status then
      status[home := Write(status[home], occ, Read(status[home], CapacityColumn(occ)))]
    else status
  }

  /** A facility the reroute may pick: not the home, forecast this month,
      total strictly above occupied. */
  predicate Candidate(home: string, status: Status, occ: Column, name: string) {
    && name != home
    && name in status
    && Read(status[name], CapacityColumn(occ)) > Read(status[name], occ)
  }

  /** The terminal states of `allocate_patient` once the date has parsed. */
  datatype Outcome =
    | AssignedHome
    | HomeUnknown
    | DistanceUnknown
    | Redirected(facility: string, km: real)
    | Unassigned

  /** The result dictionary: the bare error, or the common fields and an
      outcome. */
  datatype Decision =
    | InvalidDate
    | Decided(date: string, verdict: Verdict, need: Resource, tried: string, outcome: Outcome)

  /** Lines 78-115 for the normalised name `home`. The home facility, when
      forecast, is forced full and so never chosen; a missing home stops
      the search before the distance matrix is consulted; otherwise the
      pick is a nearest candidate of the home's distance column and the
      reported distance is that candidate's cell. */
  function Decide(home: string, status: Status, distances: DistanceMatrix, occ: Column,
                  display: string -> string): (o: Outcome)
    ensures o != AssignedHome
    ensures o.HomeUnknown? <==> home !in status
    ensures o.DistanceUnknown? <==> home in status && home !in distances
    ensures o.Redirected? ==>
              && home in status && home in distances
              && exists e :: && e in distances[home] && Candidate(home, status, occ, e.0)
                             && display(e.0) == o.facility && e.1 == o.km
                             && forall e' :: e' in distances[home] && Candidate(home, status, occ, e'.0) ==> e.1 <= e'.1
    ensures o.Unassigned? <==>
              && home in status && home in distances
              && forall e :: e in distances[home] ==> !Candidate(home, status, occ, e.0)
  {
    if home !in status then HomeUnknown
    else
      var st := ForceFull(status, home, occ);
      if Read(st[home], CapacityColumn(occ)) > Read(st[home], occ) then AssignedHome
      else if home !in distances then DistanceUnknown
      else
        var column := distances[home];
        var eligible := (n: string) => Candidate(home, st, occ, n);
        assert forall n :: eligible(n) == Candidate(home, status, occ, n);
        NearestEligible(column, eligible);
        match FirstEligible(SortByDistance(column), eligible)
        case Some(e) => Redirected(display(e.0), e.1)
        case None => Unassigned
  }

  /** A home with free ICU beds is still reported full, and the patient goes
      to the neighbour 3.2 km away. */
  lemma HomeWithRoomRedirected()
    ensures Decide("a", map["a" := Snapshot(0.0, 5.0, 0.0, 10.0), "b" := Snapshot(0.0, 0.0, 0.0, 4.0)],
                   map["a" := [("b", 3.2), ("a", 0.0)]], IcuBedsOccupied, n => n)
            == Redirected("b", 3.2)
  {
    var column := [("b", 3.2), ("a", 0.0)];
    assert column[1..] == [("a", 0.0)];
    assert [("a", 0.0)][1..] == [];
    assert SortByDistance([("a", 0.0)]) == [("a", 0.0)];
    assert InsertByDistance(("b", 3.2), [("a", 0.0)]) == [("a", 0.0)] + [("b", 3.2)];
    assert SortByDistance(column) == [("a", 0.0), ("b", 3.2)];
  }

  /** `allocate_patient`. `parsed` is what `strptime(date, "%Y-%m-%d")` makes
      of `dateInput`; `display` maps a normalised name to the facility's
      spelling in the forecast sheet. */
  function Allocate(hospitalInput: string, dateInput: string, parsed: Option<Period>,
                    age: int, platelet: int, igg: bool, igm: bool, ns1: bool,
                    forecast: Forecast, distances: DistanceMatrix, display: string -> string): (d: Decision)
    ensures d.InvalidDate? <==> parsed.None?
    ensures d.Decided? ==> d.date == dateInput && d.tried == hospitalInput
    ensures d.Decided? ==> d.outcome != AssignedHome
    ensures d.Decided? ==> (d.need == Icu <==> d.verdict.Rank() >= 2)
    ensures d.Decided? ==> d.verdict == VerdictOf(Score(age, platelet, igg, igm, ns1))
    ensures d.Decided? ==>
              (d.outcome.HomeUnknown? <==> Normalize(hospitalInput) !in MonthStatus(forecast, parsed.value))
    ensures d.Decided? ==>
              var home, status := Normalize(hospitalInput), MonthStatus(forecast, parsed.value);
              (d.outcome.DistanceUnknown? <==> home in status && home !in distances)
    ensures d.Decided? ==>
              var home, status, occ := Normalize(hospitalInput), MonthStatus(forecast, parsed.value), RequiredResource(d.verdict);
              (d.outcome.Unassigned? <==>
                 && home in status && home in distances
                 && forall e :: e in distances[home] ==> !Candidate(home, status, occ, e.0))
    ensures d.Decided? && d.outcome.Redirected? ==>
              var home, status, occ := Normalize(hospitalInput), MonthStatus(forecast, parsed.value), RequiredResource(d.verdict);
              && home in status && home in distances
              && exists e :: && e in distances[home] && Candidate(home, status, occ, e.0)
                             && display(e.0) == d.outcome.facility && e.1 == d.outcome.km
                             && forall e' :: e' in distances[home] && Candidate(home, status, occ, e'.0) ==> e.1 <= e'.1
  {
    match parsed
    case None => InvalidDate
    case Some(p) =>
      var verdict := Classify(age, platelet, igg, igm, ns1);
      var occ := RequiredResource(verdict);
      Decided(dateInput, verdict, ResourceType(occ), hospitalInput,
              Decide(Normalize(hospitalInput), MonthStatus(forecast, p), distances, occ, display))
  }

  /** Two spellings with the same key (case, surrounding whitespace) are
      allocated identically. */
  lemma SpellingInsensitive(a: string, b: string, dateInput: string, parsed: Option<Period>,
                            age: int, platelet: int, igg: bool, igm: bool, ns1: bool,
                            forecast: Forecast, distances: DistanceMatrix, display: string -> string)
    requires Normalize(a) == Normalize(b)
    ensures var da := Allocate(a, dateInput, parsed, age, platelet, igg, igm, ns1, forecast, distances, display);
            var db := Allocate(b, dateInput, parsed, age, platelet, igg, igm, ns1, forecast, distances, display);
            da.Decided? ==> da.(tried := b) == db
  {
  }

  /** `get_resource_type` as it is printed. */
  function ResourceLabel(r: Resource): string {
    if r == Icu then "ICU" else "General Bed"
  }

  /** The dictionary `allocate_patient` returns. */
  function Render(d: Decision): (out: map<string, Value>)
    ensures d.InvalidDate? <==> out.Keys == {"Error"}
    ensures d.Decided? ==>
              {"Date", "Verdict", "Resource Needed", "Hospital Tried", "Available at Current Hospital", "Note"} <= out.Keys
    ensures "Assigned Hospital" in out <==> d.Decided? && !d.outcome.HomeUnknown? && !d.outcome.DistanceUnknown?
    ensures "Distance (KM)" in out <==> d.Decided? && d.outcome.Redirected?
    ensures d.InvalidDate? ==> out["Error"] == Text("Invalid date format. Use YYYY-MM-DD")
    ensures d.Decided? ==>
              && out["Date"] == Text(d.date) && out["Verdict"] == Text(d.verdict.Name())
              && out["Resource Needed"] == Text(if d.need == Icu then "ICU" else "General Bed")
              && out["Hospital Tried"] == Text(d.tried)
    ensures d.Decided? ==>
              out["Available at Current Hospital"] ==
                Text(if d.outcome.HomeUnknown? then "Unknown" else if d.outcome.AssignedHome? then "Yes" else "No")
    ensures d.Decided? && d.outcome.AssignedHome? ==> out["Assigned Hospital"] == Text(d.tried)
    ensures d.Decided? && d.outcome.Redirected? ==>
              out["Assigned Hospital"] == Text(d.outcome.facility) && out["Distance (KM)"] == Number(d.outcome.km)
    ensures d.Decided? && d.outcome.Unassigned? ==> out["Assigned Hospital"] == Null
    ensures d.Decided? && d.outcome.AssignedHome? ==> out["Note"] == Text("Assigned at current hospital")
    ensures d.Decided? && d.outcome.HomeUnknown? ==> out["Note"] == Text("Hospital not found in prediction data")
    ensures d.Decided? && d.outcome.DistanceUnknown? ==> out["Note"] == Text("Hospital not found in distance matrix")
    ensures d.Decided? && d.outcome.Redirected? ==>
              out["Note"] == Text("Redirected to nearest hospital with available " + (if d.need == Icu then "ICU" else "General Bed"))
    ensures d.Decided? && d.outcome.Unassigned? ==> out["Note"] == Text("No nearby hospital has available resource")
  {
    match d
    case InvalidDate => map["Error" := Text("Invalid date format. Use YYYY-MM-DD")]
    case Decided(date, verdict, need, tried, outcome) =>
      var head := map["Date" := Text(date), "Verdict" := Text(verdict.Name()),
                      "Resource Needed" := Text(ResourceLabel(need)), "Hospital Tried" := Text(tried)];
      match outcome
      case AssignedHome =>
        head["Assigned Hospital" := Text(tried)]["Available at Current Hospital" := Text("Yes")]
            ["Note" := Text("Assigned at current hospital")]
      case HomeUnknown =>
        head["Available at Current Hospital" := Text("Unknown")]
            ["Note" := Text("Hospital not found in prediction data")]
      case DistanceUnknown =>
        head["Available at Current Hospital" := Text("No")]
            ["Note" := Text("Hospital not found in distance matrix")]
      case Redirected(facility, km) =>
        head["Available at Current Hospital" := Text("No")]["Assigned Hospital" := Text(facility)]
            ["Distance (KM)" := Number(km)]
            ["Note" := Text("Redirected to nearest hospital with available " + ResourceLabel(need))]
      case Unassigned =>
        head["Available at Current Hospital" := Text("No")]["Assigned Hospital" := Null]
            ["Note" := Text("No nearby hospital has available resource")]
  }
}

=== FILE: common.dfy ===
/** Shared vocabulary of the allocation engines: the forecast snapshot, the
    spreadsheet columns it is read through, severity verdicts, resources, the
    distance matrix, and the values an engine's result dictionary holds. */
module Common {

  datatype Option<+T> = None | Some(value: T)

  /** A forecast month, the granularity every capacity lookup uses. */
  datatype Period = Period(year: int, month: int)

  /** A successfully parsed admission date: its month and its `%Y-%m-%d` text. */
  datatype Date = Date(period: Period, iso: string)

  /** The four-level verdict shared by the score-based and rule-based engines,
      in escalating order. */
  datatype Verdict = Mild | Moderate | Severe | VerySevere {

    function Rank(): nat {
      match this
      case Mild => 0
      case Moderate => 1
      case Severe => 2
      case VerySevere => 3
    }

    function Name(): string {
      match this
      case Mild => "Mild"
      case Moderate => "Moderate"
      case Severe => "Severe"
      case VerySevere => "Very Severe"
    }
  }

  /** The kind of bed a patient needs. */
  datatype Resource = General | Icu

  /** The four numeric columns of the forecast sheet. */
  datatype Column = BedsOccupied | IcuBedsOccupied | BedsTotal | IcuBedsTotal {

    /** The `"ICU" in name` test the engines apply to a column header. */
    predicate MentionsIcu() {
      IcuBedsOccupied? || IcuBedsTotal?
    }
  }

  /** One facility's forecast for one month (means or first row, depending on
      the engine), occupied and total for general beds and ICU beds.
      Occupied may equal or exceed total. */
  datatype Snapshot = Snapshot(bedsOccupied: real, icuBedsOccupied: real, bedsTotal: real, icuBedsTotal: real)

  function Read(s: Snapshot, c: Column): real {
    match c
    case BedsOccupied => s.bedsOccupied
    case IcuBedsOccupied => s.icuBedsOccupied
    case BedsTotal => s.bedsTotal
    case IcuBedsTotal => s.icuBedsTotal
  }

  /** The snapshot with column `c` replaced by `x`. */
  function Write(s: Snapshot, c: Column, x: real): (r: Snapshot)
    ensures Read(r, c) == x
    ensures forall c' :: c' != c ==> Read(r, c') == Read(s, c')
  {
    match c
    case BedsOccupied => s.(bedsOccupied := x)
    case IcuBedsOccupied => s.(icuBedsOccupied := x)
    case BedsTotal => s.(bedsTotal := x)
    case IcuBedsTotal => s.(icuBedsTotal := x)
  }

  function OccupiedColumn(r: Resource): Column {
    if r == Icu then IcuBedsOccupied else BedsOccupied
  }

  function TotalColumn(r: Resource): Column {
    if r == Icu then IcuBedsTotal else BedsTotal
  }

  /** Spare capacity of resource `r`: total strictly above occupied, so a
      facility exactly at capacity is full. */
  predicate HasRoom(s: Snapshot, r: Resource) {
    Read(s, TotalColumn(r)) > Read(s, OccupiedColumn(r))
  }

  /** Facility name to snapshot, for one month. */
  type Status = map<string, Snapshot>

  /** Every month the forecast covers. */
  type Forecast = map<Period, Status>

  /** The status of one month; a month without rows has no facilities. */
  function MonthStatus(f: Forecast, p: Period): Status {
    if p in f then f[p] else map[]
  }

  /** One cell of a distance column: (row facility, distance in km). */
  type Entry = (string, real)

  /** Column facility to its column of distances, rows in file order. */
  type DistanceMatrix = map<string, seq<Entry>>

  /** A value of an engine's result dictionary. */
  datatype Value = Text(text: string) | Number(x: real) | Null
}

=== FILE: names.dfy ===
/** Facility-name normalisation as allocation2.py applies it to the typed name:
    Python's `str.strip()` followed by `str.lower()`. */
module Names {

  /** The characters Python's `str.isspace` accepts, which `strip()` removes. */
  predicate IsSpace(c: char) {
    || c == ' ' || c == '\t' || c == '\n' || c == '\r' || c == '\U{000B}' || c == '\U{000C}'
    || ('\U{001C}' <= c <= '\U{001F}')
    || c == '\U{0085}' || c == '\U{00A0}' || c == '\U{1680}'
    || ('\U{2000}' <= c <= '\U{200A}')
    || c == '\U{2028}' || c == '\U{2029}' || c == '\U{202F}' || c == '\U{205F}' || c == '\U{3000}'
  }

  /** `s` with leading whitespace removed: a suffix of `s`, everything dropped
      is whitespace, and it does not itself start with whitespace. */
  function TrimStart(s: string): (r: string)
    ensures |r| <= |s| && r == s[|s| - |r|..]
    ensures forall i :: 0 <= i < |s| - |r| ==> IsSpace(s[i])
    ensures |r| > 0 ==> !IsSpace(r[0])
  {
    if |s| > 0 && IsSpace(s[0]) then TrimStart(s[1..]) else s
  }

  /** `s` with trailing whitespace removed: a prefix of `s`, everything dropped
      is whitespace, and it does not itself end with whitespace. */
  function TrimEnd(s: string): (r: string)
    ensures |r| <= |s| && r == s[..|r|]
    ensures forall i :: |r| <= i < |s| ==> IsSpace(s[i])
    ensures |r| > 0 ==> !IsSpace(r[|r| - 1])
  {
    if |s| > 0 && IsSpace(s[|s| - 1]) then TrimEnd(s[..|s| - 1]) else s
  }

  /** Python's `str.strip()`. */
  function Strip(s: string): (r: string)
    ensures |r| > 0 ==> !IsSpace(r[0]) && !IsSpace(r[|r| - 1])
    ensures |r| <= |s|
  {
    TrimEnd(TrimStart(s))
  }

  /** Python's `str.lower()` on one character, restricted to ASCII letters. */
  function LowerChar(c: char): (d: char)
    ensures IsSpace(d) <==> IsSpace(c)
    ensures 'A' <= d <= 'Z' ==> false
  {
    if 'A' <= c <= 'Z' then (c as int + 32) as char else c
  }

  /** Python's `str.lower()` (ASCII letters only). */
  function Lower(s: string): (r: string)
    ensures |r| == |s|
    ensures forall i :: 0 <= i < |s| ==> r[i] == LowerChar(s[i])
  {
    seq(|s|, i requires 0 <= i < |s| => LowerChar(s[i]))
  }

  /** The facility key allocation2.py looks up: `name.strip().lower()`. */
  function Normalize(name: string): string {
    Lower(Strip(name))
  }

  lemma LowerIdempotent(s: string)
    ensures Lower(Lower(s)) == Lower(s)
  {
  }

  lemma {:induction false} TrimStartLower(s: string)
    ensures TrimStart(Lower(s)) == Lower(TrimStart(s))
  {
    if |s| > 0 && IsSpace(s[0]) {
      assert Lower(s)[1..] == Lower(s[1..]);
      TrimStartLower(s[1..]);
    }
  }

  lemma {:induction false} TrimEndLower(s: string)
    ensures TrimEnd(Lower(s)) == Lower(TrimEnd(s))
  {
    if |s| > 0 && IsSpace(s[|s| - 1]) {
      assert Lower(s)[..|s| - 1] == Lower(s[..|s| - 1]);
      TrimEndLower(s[..|s| - 1]);
    }
  }

  /** Stripping a stripped name changes nothing. */
  lemma StripIdempotent(s: string)
    ensures Strip(Strip(s)) == Strip(s)
  {
    var t := Strip(s);
    assert TrimStart(t) == t;
    assert TrimEnd(t) == t;
  }

  /** Normalisation is idempotent: a key is its own key. */
  lemma NormalizeIdempotent(name: string)
    ensures Normalize(Normalize(name)) == Normalize(name)
  {
    var t := Strip(name);
    calc {
      Normalize(Normalize(name));
      Lower(TrimEnd(TrimStart(Lower(t))));
      { TrimStartLower(t); }
      Lower(TrimEnd(Lower(TrimStart(t))));
      { TrimEndLower(TrimStart(t)); }
      Lower(Lower(Strip(t)));
      { StripIdempotent(name); LowerIdempotent(t); }
      Lower(t);
    }
  }

  /** Stripping and lower-casing commute. */
  lemma StripLower(s: string)
    ensures Strip(Lower(s)) == Lower(Strip(s))
  {
    TrimStartLower(s);
    TrimEndLower(TrimStart(s));
  }

  /** Names that differ only in surrounding whitespace and ASCII letter case
      have the same key. */
  lemma NormalizeIgnoresCaseAndSpace(name: string, other: string, pre: string, post: string)
    requires Lower(other) == Lower(name)
    requires forall i :: 0 <= i < |pre| ==> IsSpace(pre[i])
    requires forall i :: 0 <= i < |post| ==> IsSpace(post[i])
    ensures Normalize(pre + other + post) == Normalize(name)
  {
    StripPadded(pre, other, post);
    StripLower(other);
    StripLower(name);
  }

  lemma {:induction false} StripPadded(pre: string, m: string, post: string)
    requires forall i :: 0 <= i < |pre| ==> IsSpace(pre[i])
    requires forall i :: 0 <= i < |post| ==> IsSpace(post[i])
    ensures Strip(pre + m + post) == Strip(m)
  {
    assert pre + m + post == pre + (m + post);
    TrimStartPadded(pre, m + post);
    var u := TrimStart(m);
    TrimStartAppend(m, post);
    TrimEndPadded(u, post);
  }

  lemma {:induction false} TrimStartPadded(pre: string, m: string)
    requires forall i :: 0 <= i < |pre| ==> IsSpace(pre[i])
    ensures TrimStart(pre + m) == TrimStart(m)
  {
    if |pre| > 0 {
      assert (pre + m)[1..] == pre[1..] + m;
      TrimStartPadded(pre[1..], m);
    } else {
      assert pre + m == m;
    }
  }

  lemma {:induction false} TrimEndPadded(m: string, post: string)
    requires forall i :: 0 <= i < |post| ==> IsSpace(post[i])
    ensures TrimEnd(m + post) == TrimEnd(m)
  {
    if |post| > 0 {
      assert (m + post)[..|m + post| - 1] == m + post[..|post| - 1];
      TrimEndPadded(m, post[..|post| - 1]);
    } else {
      assert m + post == m;
    }
  }

  /** Leading whitespace is trimmed the same with a suffix attached, unless
      the whole of `m` is whitespace. */
  lemma {:induction false} TrimStartAppend(m: string, post: string)
    ensures |TrimStart(m)| > 0 ==> TrimStart(m + post) == TrimStart(m) + post
    ensures |TrimStart(m)| == 0 ==> TrimStart(m + post) == TrimStart(post)
  {
    if |m| > 0 && IsSpace(m[0]) {
      assert (m + post)[1..] == m[1..] + post;
      TrimStartAppend(m[1..], post);
    } else if |m| == 0 {
      assert m + post == post;
    }
  }
}

=== FILE: ranking.dfy ===
/** The fallback search shared by every engine: a distance column sorted in
    ascending order (pandas `sort_values`) and a scan for its first entry
    that passes an engine-specific test. */
module Ranking {
  import opened Common

  /** Distances never decrease along `s`. */
  predicate Ascending(s: seq<Entry>) {
    forall i, j :: 0 <= i < j < |s| ==> s[i].1 <= s[j].1
  }

  /** An entry no farther than everything in an ascending column can go
      in front of it. */
  lemma AscendingCons(x: Entry, t: seq<Entry>)
    requires Ascending(t)
    requires forall y :: y in t ==> x.1 <= y.1
    ensures Ascending([x] + t)
  {
    var r := [x] + t;
    forall i, j | 0 <= i < j < |r| ensures r[i].1 <= r[j].1 {
      assert r[j] == t[j - 1];
      if i > 0 {
        assert r[i] == t[i - 1];
      }
    }
  }

  /** Inserts `e` into an ascending column before the first entry that is
      not nearer than it. */
  function InsertByDistance(e: Entry, s: seq<Entry>): (r: seq<Entry>)
    requires Ascending(s)
    ensures Ascending(r)
    ensures multiset(r) == multiset(s) + multiset{e}
  {
    if |s| == 0 then [e]
    else if e.1 <= s[0].1 then
      AscendingCons(e, s);
      [e] + s
    else
      var rest := InsertByDistance(e, s[1..]);
      InsertBehind(e, s, rest);
      [s[0]] + rest
  }

  /** The recursive step of the insertion: `e` goes behind the head. */
  lemma InsertBehind(e: Entry, s: seq<Entry>, rest: seq<Entry>)
    requires |s| > 0 && Ascending(s) && s[0].1 < e.1
    requires Ascending(rest) && multiset(rest) == multiset(s[1..]) + multiset{e}
    ensures Ascending([s[0]] + rest)
    ensures multiset([s[0]] + rest) == multiset(s) + multiset{e}
  {
    assert s == [s[0]] + s[1..];
    forall y | y in rest ensures s[0].1 <= y.1 {
      assert y in multiset(rest);
      if y != e {
        assert y in multiset(s[1..]);
        assert y in s[1..];
      }
    }
    AscendingCons(s[0], rest);
  }

  /** `Series.sort_values()` on a distance column: the same entries, nearest
      first. Ties may come out in any order in pandas `sort_values`; nothing
      proved about the engines depends on the order of ties. */
  function SortByDistance(column: seq<Entry>): (r: seq<Entry>)
    ensures Ascending(r)
    ensures multiset(r) == multiset(column)
  {
    if |column| == 0 then []
    else
      assert column == [column[0]] + column[1..];
      InsertByDistance(column[0], SortByDistance(column[1..]))
  }

  /** The first entry of `ranked` whose facility passes `eligible`, or None.
      On an ascending column that entry is a nearest eligible one. */
  function FirstEligible(ranked: seq<Entry>, eligible: string -> bool): (r: Option<Entry>)
    ensures r.Some? ==> r.value in ranked && eligible(r.value.0)
    ensures r.Some? ==>
              exists i :: && 0 <= i < |ranked| && ranked[i] == r.value
                          && forall j :: 0 <= j < i ==> !eligible(ranked[j].0)
    ensures r.None? <==> forall e :: e in ranked ==> !eligible(e.0)
    ensures r.Some? && Ascending(ranked) ==>
              forall e :: e in ranked && eligible(e.0) ==> r.value.1 <= e.1
  {
    if |ranked| == 0 then None
    else if eligible(ranked[0].0) then Some(ranked[0])
    else
      assert forall e :: e in ranked ==> e == ranked[0] || e in ranked[1..];
      FirstEligible(ranked[1..], eligible)
  }

  /** The fallback pick made from a whole distance column: an eligible entry
      of the column at minimum distance among all eligible entries, or None
      exactly when no entry is eligible. */
  lemma NearestEligible(column: seq<Entry>, eligible: string -> bool)
    ensures var r := FirstEligible(SortByDistance(column), eligible);
            && (r.Some? ==> r.value in column && eligible(r.value.0))
            && (r.Some? ==> forall e :: e in column && eligible(e.0) ==> r.value.1 <= e.1)
            && (r.None? <==> forall e :: e in column ==> !eligible(e.0))
  {
    var ranked := SortByDistance(column);
    assert forall e :: e in column <==> e in ranked by {
      forall e ensures e in column <==> e in ranked {
        assert e in column <==> e in multiset(column);
        assert e in ranked <==> e in multiset(ranked);
      }
    }
  }
}

=== FILE: simulator.dfy ===
/** simulator.py: rule-based verdicts over "Positive"/"Negative" test
    results, the first forecast row per facility and month, strict `<`
    availability, and rerouting without an explicit self-skip. */
module Simulator {
  import opened Common
  import opened Ranking

  /** `get_verdict`: the first rule that fires wins. A test counts only when
      its result is exactly the string "Positive". */
  function GetVerdict(platelet: int, igg: string, igm: string, ns1: string): (v: Verdict)
    ensures v == VerySevere <==> platelet < 20000 && ns1 == "Positive"
    ensures v == Severe <==>
              && !(platelet < 20000 && ns1 == "Positive")
              && (platelet < 50000 || (igg == "Positive" && igm == "Positive"))
    ensures platelet < 50000 ==> v.Rank() >= 2
    ensures igg == "Positive" && igm == "Positive" ==> v.Rank() >= 2
    ensures v == Mild <==> platelet > 100000 && igg != "Positive"
  {
    if platelet < 20000 && ns1 == "Positive" then VerySevere
    else if platelet < 50000 || (igg == "Positive" && igm == "Positive") then Severe
    else if (50000 <= platelet <= 100000) || igg == "Positive" then Moderate
    else Mild
  }

  /** Lowering the platelet count or turning a test "Positive" never lowers
      the verdict. */
  lemma VerdictMonotone(platelet: int, igg: string, igm: string, ns1: string,
                        platelet': int, igg': string, igm': string, ns1': string)
    requires platelet' <= platelet
    requires (igg == "Positive" ==> igg' == "Positive") && (igm == "Positive" ==> igm' == "Positive")
    requires ns1 == "Positive" ==> ns1' == "Positive"
    ensures GetVerdict(platelet, igg, igm, ns1).Rank() <= GetVerdict(platelet', igg', igm', ns1').Rank()
  {
  }

  /** Line 28: ICU for Severe and Very Severe, a general bed otherwise. */
  function NeedOf(v: Verdict): (r: Resource)
    ensures r == Icu <==> v.Rank() >= 2
  {
    if v == VerySevere || v == Severe then Icu else General
  }

  /** A facility the reroute may pick: it has a forecast row this month with
      occupied strictly below total. The home is not excluded by name. */
  predicate Eligible(status: Status, need: Resource, name: string) {
    name in status && HasRoom(status[name], need)
  }

  /** The terminal states of `allocate_patient` once the date has parsed. */
  datatype Outcome =
    | AssignedHome
    | NotInPrediction
    | NotInDistance
    | Rerouted(facility: string, km: real)
    | NoneFound

  /** A result dictionary, or the exception `pd.to_datetime` raises. */
  datatype Decision =
    | DateRaised
    | Decided(date: string, verdict: Verdict, need: Resource, tried: string, outcome: Outcome)

  /** Lines 31-123 for the name `home` as typed. Without a forecast row the
      request ends at once; a home with room is used; otherwise the reroute
      needs the home's distance column and picks a nearest eligible
      facility, which is never the home. */
  function Decide(home: string, status: Status, distances: DistanceMatrix, need: Resource): (o: Outcome)
    ensures o.NotInPrediction? <==> home !in status
    ensures o.AssignedHome? <==> home in status && HasRoom(status[home], need)
    ensures o.NotInDistance? <==> home in status && !HasRoom(status[home], need) && home !in distances
    ensures o.Rerouted? ==>
              && o.facility != home && home in distances
              && exists e :: && e in distances[home] && Eligible(status, need, e.0)
                             && e.0 == o.facility && e.1 == o.km
                             && forall e' :: e' in distances[home] && Eligible(status, need, e'.0) ==> e.1 <= e'.1
    ensures o.NoneFound? <==>
              && home in status && !HasRoom(status[home], need) && home in distances
              && forall e :: e in distances[home] ==> !Eligible(status, need, e.0)
  {
    if home !in status then NotInPrediction
    else if HasRoom(status[home], need) then AssignedHome
    else if home !in distances then NotInDistance
    else
      var column := distances[home];
      var eligible := (n: string) => Eligible(status, need, n);
      NearestEligible(column, eligible);
      match FirstEligible(SortByDistance(column), eligible)
      case Some(e) => Rerouted(e.0, e.1)
      case None => NoneFound
  }

  /** `allocate_patient`; `parsed` is what `pd.to_datetime` makes of the
      date. Age and weight are never read. */
  function Allocate(hospital: string, parsed: Option<Date>,
                    platelet: int, igg: string, igm: string, ns1: string,
                    forecast: Forecast, distances: DistanceMatrix): (d: Decision)
    ensures d.DateRaised? <==> parsed.None?
    ensures d.Decided? ==> d.tried == hospital && d.date == parsed.value.iso
    ensures d.Decided? ==> (d.need == Icu <==> d.verdict.Rank() >= 2)
    ensures d.Decided? ==>
              var status := MonthStatus(forecast, parsed.value.period);
              (d.outcome.AssignedHome? <==> hospital in status && HasRoom(status[hospital], d.need))
    ensures d.Decided? && d.outcome.Rerouted? ==> d.outcome.facility != hospital
    ensures d.Decided? ==> d.verdict == GetVerdict(platelet, igg, igm, ns1)
    ensures d.Decided? ==>
              (d.outcome.NotInPrediction? <==> hospital !in MonthStatus(forecast, parsed.value.period))
    ensures d.Decided? ==>
              var status := MonthStatus(forecast, parsed.value.period);
              (d.outcome.NotInDistance? <==>
                 hospital in status && !HasRoom(status[hospital], d.need) && hospital !in distances)
    ensures d.Decided? && d.outcome.Rerouted? ==>
              var status := MonthStatus(forecast, parsed.value.period);
              && hospital in distances
              && exists e :: && e in distances[hospital] && Eligible(status, d.need, e.0)
                             && e.0 == d.outcome.facility && e.1 == d.outcome.km
                             && forall e' :: e' in distances[hospital] && Eligible(status, d.need, e'.0) ==> e.1 <= e'.1
    ensures d.Decided? ==>
              var status := MonthStatus(forecast, parsed.value.period);
              (d.outcome.NoneFound? <==>
                 && hospital in status && !HasRoom(status[hospital], d.need) && hospital in distances
                 && forall e :: e in distances[hospital] ==> !Eligible(status, d.need, e.0))
  {
    match parsed
    case None => DateRaised
    case Some(date) =>
      var verdict := GetVerdict(platelet, igg, igm, ns1);
      var need := NeedOf(verdict);
      Decided(date.iso, verdict, need, hospital,
              Decide(hospital, MonthStatus(forecast, date.period), distances, need))
  }

  function ResourceLabel(r: Resource): string {
    if r == Icu then "ICU" else "General"
  }

  /** The dictionary `allocate_patient` returns. */
  function Render(d: Decision): (out: Option<map<string, Value>>)
    ensures out.None? <==> d.DateRaised?
    ensures out.Some? ==>
              {"Date", "Verdict", "Resource Needed", "Hospital Tried", "Available at Current Hospital",
               "Assigned Hospital", "Note"} <= out.value.Keys
    ensures out.Some? ==>
              && out.value["Date"] == Text(d.date) && out.value["Verdict"] == Text(d.verdict.Name())
              && out.value["Resource Needed"] == Text(if d.need == Icu then "ICU" else "General")
              && out.value["Hospital Tried"] == Text(d.tried)
    ensures out.Some? ==> ("Distance (km)" in out.value <==> d.outcome.Rerouted?)
    ensures out.Some? && d.outcome.AssignedHome? ==>
              out.value["Available at Current Hospital"] == Text("Yes") && out.value["Assigned Hospital"] == Text(d.tried)
    ensures out.Some? && d.outcome.Rerouted? ==>
              && out.value["Available at Current Hospital"] == Text("No")
              && out.value["Assigned Hospital"] == Text(d.outcome.facility)
              && out.value["Distance (km)"] == Number(d.outcome.km)
    ensures out.Some? && (d.outcome.NotInPrediction? || d.outcome.NotInDistance? || d.outcome.NoneFound?) ==>
              out.value["Assigned Hospital"] == Text("None Found")
              && out.value["Available at Current Hospital"] == Text("No")
    ensures out.Some? && d.outcome.AssignedHome? ==> out.value["Note"] == Text("Assigned at selected hospital")
    ensures out.Some? && d.outcome.NotInPrediction? ==> out.value["Note"] == Text("Hospital not found in prediction")
    ensures out.Some? && d.outcome.NotInDistance? ==> out.value["Note"] == Text("Hospital not found in distance matrix")
    ensures out.Some? && d.outcome.Rerouted? ==>
              out.value["Note"] == Text(if d.need == Icu then "Rerouted to nearest hospital with ICU"
                                        else "Rerouted to nearest hospital with general bed")
    ensures out.Some? && d.outcome.NoneFound? ==> out.value["Note"] == Text("No available hospitals found nearby")
  {
    match d
    case DateRaised => None
    case Decided(date, verdict, need, tried, outcome) =>
      var head := map["Date" := Text(date), "Verdict" := Text(verdict.Name()),
                      "Resource Needed" := Text(ResourceLabel(need)), "Hospital Tried" := Text(tried)];
      var noneFound := head["Available at Current Hospital" := Text("No")]["Assigned Hospital" := Text("None Found")];
      match outcome
      case AssignedHome =>
        Some(head["Available at Current Hospital" := Text("Yes")]["Assigned Hospital" := Text(tried)]
                 ["Note" := Text("Assigned at selected hospital")])
      case NotInPrediction =>
        Some(noneFound["Note" := Text("Hospital not found in prediction")])
      case NotInDistance =>
        Some(noneFound["Note" := Text("Hospital not found in distance matrix")])
      case Rerouted(facility, km) =>
        Some(head["Available at Current Hospital" := Text("No")]["Assigned Hospital" := Text(facility)]
                 ["Distance (km)" := Number(km)]
                 ["Note" := Text(if need == Icu then "Rerouted to nearest hospital with ICU"
                                 else "Rerouted to nearest hospital with general bed")])
      case NoneFound =>
        Some(noneFound["Note" := Text("No available hospitals found nearby")])
  }
}

=== FILE: streamlitee.dfy ===
/** streamlitee.py: the web form's decision logic, a three-level rule set
    that fixes the need together with the verdict, and the allocation it
    feeds. */
module Streamlit {
  import C = Common
  import opened Ranking

  /** The three verdicts `get_verdict` returns, in escalating order. */
  datatype Triage = Normal | Severe | VerySevere {

    function Name(): string {
      match this
      case Normal => "Normal"
      case Severe => "Severe"
      case VerySevere => "Very Severe"
    }
  }

  /** `get_verdict`: a platelet count under 50000 or three positive tests is
      Very Severe, otherwise under 100000 is Severe, otherwise Normal; the
      need is ICU for every verdict but Normal. */
  function GetVerdict(age: int, weight: real, platelet: int, igg: string, igm: string, ns1: string): (r: (Triage, C.Resource))
    ensures r.1 == C.Icu <==> r.0 != Normal
    ensures platelet < 50000 ==> r.0 == VerySevere
    ensures r.0 == VerySevere <==> platelet < 50000 || (igg == "Positive" && igm == "Positive" && ns1 == "Positive")
    ensures r.0 == Normal <==> platelet >= 100000 && !(igg == "Positive" && igm == "Positive" && ns1 == "Positive")
  {
    if platelet < 50000 || (igg == "Positive" && igm == "Positive" && ns1 == "Positive") then (VerySevere, C.Icu)
    else if platelet < 100000 then (Severe, C.Icu)
    else (Normal, C.General)
  }

  /** Age and weight take no part in the verdict. */
  lemma VerdictIgnoresAgeAndWeight(age: int, weight: real, age': int, weight': real,
                                   platelet: int, igg: string, igm: string, ns1: string)
    ensures GetVerdict(age, weight, platelet, igg, igm, ns1) == GetVerdict(age', weight', platelet, igg, igm, ns1)
  {
  }

  /** A facility the fallback may pick: not the home, has a forecast row for
      the date, occupied strictly below total. */
  predicate Candidate(home: string, status: C.Status, need: C.Resource, name: string) {
    name != home && name in status && C.HasRoom(status[name], need)
  }

  /** The terminal states of `allocate`. */
  datatype Outcome =
    | AssignedHome
    | NotFound
    | NotInDistance
    | Rerouted(facility: string, km: real)
    | NoneAvailable

  datatype Decision = Decided(date: string, verdict: Triage, need: C.Resource, tried: string, outcome: Outcome)

  /** Lines 42-79 for the name `home`: without a row the request ends; a home
      with room is used; otherwise a nearest candidate of the home's
      distance column. */
  function Decide(home: string, status: C.Status, distances: C.DistanceMatrix, need: C.Resource): (o: Outcome)
    ensures o.NotFound? <==> home !in status
    ensures o.AssignedHome? <==> home in status && C.HasRoom(status[home], need)
    ensures o.NotInDistance? <==> home in status && !C.HasRoom(status[home], need) && home !in distances
    ensures o.Rerouted? ==>
              && home in distances
              && exists e :: && e in distances[home] && Candidate(home, status, need, e.0)
                             && e.0 == o.facility && e.1 == o.km
                             && forall e' :: e' in distances[home] && Candidate(home, status, need, e'.0) ==> e.1 <= e'.1
    ensures o.NoneAvailable? <==>
              && home in status && !C.HasRoom(status[home], need) && home in distances
              && forall e :: e in distances[home] ==> !Candidate(home, status, need, e.0)
  {
    if home !in status then NotFound
    else if C.HasRoom(status[home], need) then AssignedHome
    else if home !in distances then NotInDistance
    else
      var column := distances[home];
      var eligible := (n: string) => Candidate(home, status, need, n);
      NearestEligible(column, eligible);
      match FirstEligible(SortByDistance(column), eligible)
      case Some(e) => Rerouted(e.0, e.1)
      case None => NoneAvailable
  }

  /** `allocate`. `status` holds the forecast rows matching the admission
      date, the first row per facility. */
  function Allocate(hospital: string, date: C.Date, age: int, weight: real,
                    platelet: int, igg: string, igm: string, ns1: string,
                    status: C.Status, distances: C.DistanceMatrix): (d: Decision)
    ensures d.tried == hospital && d.date == date.iso
    ensures d.need == C.Icu <==> d.verdict != Normal
    ensures d.outcome.AssignedHome? <==> hospital in status && C.HasRoom(status[hospital], d.need)
    ensures d.outcome.Rerouted? ==> d.outcome.facility != hospital
    ensures (d.verdict, d.need) == GetVerdict(age, weight, platelet, igg, igm, ns1)
    ensures d.outcome.NotFound? <==> hospital !in status
    ensures d.outcome.NotInDistance? <==>
              hospital in status && !C.HasRoom(status[hospital], d.need) && hospital !in distances
    ensures d.outcome.Rerouted? ==>
              && hospital in distances
              && exists e :: && e in distances[hospital] && Candidate(hospital, status, d.need, e.0)
                             && e.0 == d.outcome.facility && e.1 == d.outcome.km
                             && forall e' :: e' in distances[hospital] && Candidate(hospital, status, d.need, e'.0) ==> e.1 <= e'.1
    ensures d.outcome.NoneAvailable? <==>
              && hospital in status && !C.HasRoom(status[hospital], d.need) && hospital in distances
              && forall e :: e in distances[hospital] ==> !Candidate(hospital, status, d.need, e.0)
  {
    var (verdict, need) := GetVerdict(age, weight, platelet, igg, igm, ns1);
    Decided(date.iso, verdict, need, hospital, Decide(hospital, status, distances, need))
  }

  function ResourceLabel(r: C.Resource): string {
    if r == C.Icu then "ICU" else "General"
  }

  /** The dictionary `allocate` returns. */
  function Render(d: Decision): (out: map<string, C.Value>)
    ensures {"Date", "Verdict", "Resource Needed", "Hospital Tried", "Available at Current Hospital",
             "Assigned Hospital", "Distance (km)", "Note"} <= out.Keys
    ensures && out["Date"] == C.Text(d.date) && out["Verdict"] == C.Text(d.verdict.Name())
            && out["Resource Needed"] == C.Text(if d.need == C.Icu then "ICU" else "General")
            && out["Hospital Tried"] == C.Text(d.tried)
    ensures out["Available at Current Hospital"] == C.Text(if d.outcome.AssignedHome? then "Yes" else "No")
    ensures d.outcome.AssignedHome? ==> out["Assigned Hospital"] == C.Text(d.tried)
    ensures d.outcome.Rerouted? ==>
              out["Assigned Hospital"] == C.Text(d.outcome.facility) && out["Distance (km)"] == C.Number(d.outcome.km)
    ensures d.outcome.AssignedHome? ==> out["Distance (km)"] == C.Number(0.0)
    ensures d.outcome.NotFound? || d.outcome.NotInDistance? ==>
              out["Assigned Hospital"] == C.Text("N/A") && out["Distance (km)"] == C.Text("N/A")
    ensures d.outcome.NoneAvailable? ==> out["Assigned Hospital"] == C.Text("None")
    ensures d.outcome.NoneAvailable? ==> out["Distance (km)"] == C.Text("N/A")
    ensures d.outcome.AssignedHome? ==> out["Note"] == C.Text("Assigned at selected hospital")
    ensures d.outcome.NotFound? ==> out["Note"] == C.Text("Hospital/date not found.")
    ensures d.outcome.NotInDistance? ==> out["Note"] == C.Text("Hospital not in distance matrix")
    ensures d.outcome.Rerouted? ==>
              out["Note"] == C.Text(if d.need == C.Icu then "Rerouted to nearest ICU available"
                                    else "Rerouted to nearest General bed available")
    ensures d.outcome.NoneAvailable? ==> out["Note"] == C.Text("No beds/ICU available")
  {
    var head := map["Date" := C.Text(d.date), "Verdict" := C.Text(d.verdict.Name()),
                    "Resource Needed" := C.Text(ResourceLabel(d.need)), "Hospital Tried" := C.Text(d.tried)];
    var no := head["Available at Current Hospital" := C.Text("No")];
    match d.outcome
    case AssignedHome =>
      head["Available at Current Hospital" := C.Text("Yes")]["Assigned Hospital" := C.Text(d.tried)]
          ["Distance (km)" := C.Number(0.0)]["Note" := C.Text("Assigned at selected hospital")]
    case NotFound =>
      no["Assigned Hospital" := C.Text("N/A")]["Distance (km)" := C.Text("N/A")]
        ["Note" := C.Text("Hospital/date not found.")]
    case NotInDistance =>
      no["Assigned Hospital" := C.Text("N/A")]["Distance (km)" := C.Text("N/A")]
        ["Note" := C.Text("Hospital not in distance matrix")]
    case Rerouted(facility, km) =>
      no["Assigned Hospital" := C.Text(facility)]["Distance (km)" := C.Number(km)]
        ["Note" := C.Text(if d.need == C.Icu then "Rerouted to nearest ICU available"
                          else "Rerouted to nearest General bed available")]
    case NoneAvailable =>
      no["Assigned Hospital" := C.Text("None")]["Distance (km)" := C.Text("N/A")]
        ["Note" := C.Text("No beds/ICU available")]
  }
}
